=== FILE: README.md ===
# Mandelbrot viewer engine, modelled in Dafny

This project models the sequential engine of a Mandelbrot-set viewer: the
`RecursiveFractalPanel` class together with the value classes `Complex` and
`ComplexRange`. It covers the following parts:

- **Viewport.** Four bounds give the visible part of the complex plane.
  `setMathBounds` stores a rectangle given by two corners in any order.
  `pixelX2MathX` and `pixelY2MathY` map pixel columns and rows to real and
  imaginary parts; the y axis is inverted.
- **History.** An undo stack and a redo stack hold `ComplexRange` values. They
  are used by `performReset`, `performUndo`, `performRedo` and the box zoom
  `updateMathBoundsFromMouseDrag`. The panel's callbacks that enable the Undo
  and Redo menu items are two booleans in the state.
- **Escape count and colour.** `countStepsToExit` iterates z -> z^2 + c from 0
  for at most 1024 rounds, with threshold |z|^2 > 10. `count2Color` turns the
  count into an RGB colour with Java `int` arithmetic.
- **Scans.** `performTraditionalScan` paints row by row.
  `performPixelatedScan` paints blocks that halve in size on each pass. The
  `shouldInterrupt` flag becomes a `budget`: the number of polls that find the
  flag clear before one finds it set.

The panel is an immutable datatype and every command is a pure function from
panel to panel. Stacks are sequences whose last element is the top. The image
is a sequence of `height` rows of `width` pixels, indexed `image[y][x]`. The
panel's size is passed explicitly wherever `getWidth()` and `getHeight()` were
used.

Modules:

- `ComplexNumbers` (complex.dfy)
- `Ranges` (complex_range.dfy)
- `Viewport` (viewport.dfy)
- `History` (history.dfy)
- `Escape` (escape.dfy)
- `Colors` (colors.dfy)
- `Scans` (scans.dfy)
- `Pixelated` (pixelated.dfy)
- `Wrappers` (wrappers.dfy), which holds `Option`

Two library calls are modelled as helpers. `Colors.NewColor` stands for the
`java.awt.Color(int, int, int)` constructor, which throws unless every channel
is in 0..255; it gives `None` where the constructor throws.
`Pixelated.FillRect` stands for `Graphics.fillRect`, clipped to the image.

Several functions transcribe a Java method directly. They carry no contract of
their own; the lemmas in the table below state their properties.

- `ComplexNumbers.Plus` is `plus` (src/Complex.java:29-32).
- `ComplexNumbers.Times` is `times(Complex)` (src/Complex.java:34-38).
- `ComplexNumbers.Scale` is `times(double)` (src/Complex.java:40-43).
- `ComplexNumbers.Squared` is `squared` (src/Complex.java:45-48).
- `ComplexNumbers.One`, `Zero` and `I` are `one()`, `zero()` and `I()` (src/Complex.java:50-69), without the object cache.
- `ComplexNumbers.MagnitudeSquared` is `magnitude_squared` (src/Complex.java:71-74).
- `Escape.Orbit(c, n)` is the value of `z` after `n` rounds of `z = z.squared().plus(c)` from `Complex.zero()` (src/RecursiveFractalPanel.java:130-133).
- `History.NewPanel` is the constructor, which ends with `performReset()` (src/RecursiveFractalPanel.java:28-39).
- `Viewport.CurrentRange` is the `ComplexRange` of the current bounds that reset, undo, redo and the drag push (src/RecursiveFractalPanel.java:156, 181, 197 and 216).
- `Scans.PointForPixel` is the `Complex` built from `pixelX2MathX(x)` and `pixelY2MathY(y)` in `getColorForPixel` (src/RecursiveFractalPanel.java:149).

## Model

| member | source | states |
|---|---|---|
| ComplexNumbers.PlusIsAbelian | src/Complex.java:29-32 | Componentwise addition is commutative and associative, has `zero()` as identity, and has inverses through `times(-1.0)`. |
| ComplexNumbers.TimesIsCommutativeRing | src/Complex.java:34-38 | The product (ac-bd, ad+bc) is commutative and associative. It distributes over `plus`, has `one()` as identity and `zero()` as absorbing element. |
| ComplexNumbers.ScaleIsTimesReal | src/Complex.java:34-43 | The two `times` overloads agree: `times(double n)` is the complex product with (n, 0). Scaling by 1 is the identity. |
| ComplexNumbers.ImaginaryUnitSquared | src/Complex.java:45-74 | `I().squared()` is -`one()` and `I().magnitude_squared()` is 1. |
| ComplexNumbers.MagnitudeSquaredIsNonNegative | src/Complex.java:71-74 | re^2 + im^2 is never negative, and it is 0 at `zero()`. |
| ComplexNumbers.MagnitudeSquaredIsMultiplicative | src/Complex.java:34-74 | The squared modulus of a product is the product of the squared moduli, so squaring z squares its squared modulus. |
| Ranges.CornersAreStoredAsGiven | src/ComplexRange.java:7-19 | `getMin`/`getMax` return exactly the constructor's arguments. The range is ordered only if the arguments were. |
| Ranges.Equals | src/ComplexRange.java:22-28 | `equals` is reflexive and false for null or another class. On a consistent heap it holds exactly when both corner references are identical. |
| Ranges.EqualsIsIdentityOfCorners | src/ComplexRange.java:22-28 | On a consistent heap, `equals` implies equal corner values and is symmetric. |
| Ranges.SameNumbersAreNotEqual | src/ComplexRange.java:27 | Two ranges whose corners have the same numbers but are separate objects are not `equals`, because `Complex` keeps identity equality. |
| Viewport.SetMathBounds | src/RecursiveFractalPanel.java:163-171 | The result has min <= max on both axes. The min/max pairs are the two corners' coordinates, per axis. Both render flags are raised and the history is unchanged. |
| Viewport.SetMathBoundsIgnoresCornerOrder | src/RecursiveFractalPanel.java:163-171 | Swapping the corners, or passing the other diagonal of the same rectangle, gives the same panel. |
| Viewport.SetMathBoundsToCurrentKeepsBounds | src/RecursiveFractalPanel.java:163-171 | Setting the bounds the panel already has leaves the view unchanged. |
| Viewport.PixelXToMathX | src/RecursiveFractalPanel.java:79-85 | A degenerate horizontal range maps every column to its one value. Column 0 shows minMathX and column `width` shows maxMathX. |
| Viewport.PixelYToMathY | src/RecursiveFractalPanel.java:93-99 | A degenerate vertical range maps every row to its one value. Row 0 shows maxMathY and row `height` shows minMathY (inverted axis). |
| Viewport.PixelXToMathXIsMonotonic | src/RecursiveFractalPanel.java:79-85 | With ordered bounds the real part is non-decreasing in x, and strictly increasing on a non-degenerate range. |
| Viewport.PixelXToMathXStaysInView | src/RecursiveFractalPanel.java:79-85 | Columns 0..width map into [minMathX, maxMathX]. |
| Viewport.PixelYToMathYIsAntitonic | src/RecursiveFractalPanel.java:93-99 | The imaginary part is non-increasing in y, and strictly decreasing on a non-degenerate range. |
| Viewport.PixelYToMathYStaysInView | src/RecursiveFractalPanel.java:93-99 | Rows 0..height map into [minMathY, maxMathY]. |
| Viewport.MiddleColumnIsCentre | src/RecursiveFractalPanel.java:79-85 | Column width/2 shows the midpoint of the horizontal range. |
| Viewport.MiddleRowIsCentre | src/RecursiveFractalPanel.java:93-99 | Row height/2 shows the midpoint of the vertical range. |
| History.PerformReset | src/RecursiveFractalPanel.java:152-161 | At (-2,-2)-(2,2) it is a no-op. Otherwise it pushes the old range on the undo stack, shows the default bounds, empties the redo stack, and enables Undo but not Redo. |
| History.ResetIsIdempotent | src/RecursiveFractalPanel.java:152-161 | Resetting twice equals resetting once. |
| History.ResetPreservesValid | src/RecursiveFractalPanel.java:152-161 | Reset keeps the panel invariant. The invariant is: ordered bounds, ordered ranges on both stacks, and each menu enabled exactly when its stack is non-empty. |
| History.PerformUndo | src/RecursiveFractalPanel.java:177-188 | On an empty undo stack nothing changes. Otherwise the current range is pushed on the redo stack and the top undo entry is popped and becomes the view: on each axis the new bounds are the entry's two corner coordinates in order, whether or not the entry was ordered. Undo is enabled iff entries remain, and Redo is enabled. |
| History.UndoPreservesValid | src/RecursiveFractalPanel.java:177-188 | Undo keeps the panel invariant. |
| History.PerformRedo | src/RecursiveFractalPanel.java:193-203 | The mirror image of undo, with the two stacks exchanged: the top redo entry becomes the view, its corner coordinates put in order on each axis. |
| History.RedoPreservesValid | src/RecursiveFractalPanel.java:193-203 | Redo keeps the panel invariant. |
| History.UndoThenRedoRestores | src/RecursiveFractalPanel.java:177-203 | Undo then redo gives back the same bounds, stacks and menu states. Only the render flags end up raised. |
| History.RedoThenUndoRestores | src/RecursiveFractalPanel.java:177-203 | Redo then undo gives back the same bounds, stacks and menu states. |
| History.UpdateMathBoundsFromMouseDrag | src/RecursiveFractalPanel.java:212-230 | A drag of zero width or height changes nothing. Otherwise the old range is pushed for undo and the redo stack is emptied. The new bounds are the mapped drag corners, normalised, and the flags and menus are set. |
| History.DragPreservesValid | src/RecursiveFractalPanel.java:212-230 | A box zoom keeps the panel invariant. |
| History.UndoReversesDrag | src/RecursiveFractalPanel.java:177-230 | Undo right after a box zoom brings back the previous view and undo stack, and leaves the zoomed view as the only redo entry. |
| History.DragZoomsIn | src/RecursiveFractalPanel.java:212-230 | A drag inside the panel gives bounds inside the old ones. They are not degenerate where the old ones were not. |
| History.NewPanelState | src/RecursiveFractalPanel.java:28-39 | A new panel shows (-2,-2)-(2,2) and satisfies the invariant. Its undo stack holds the all-zero range and its redo stack is empty. |
| Escape.CountFrom | src/RecursiveFractalPanel.java:131-137 | From round `count` on: the result is in [0, 1024). It is either the first escaping round at or after `count`, or 0 when no later round escapes. |
| Escape.CountStepsToExit | src/RecursiveFractalPanel.java:128-138 | The result is in [0, 1024). A positive result is the first round whose iterate has |z|^2 > 10. The result is 0 exactly when round 0 escapes or no round escapes. |
| Escape.CountStepsToExitLoop | src/RecursiveFractalPanel.java:128-138 | The loop that carries z from round to round returns the count defined above. |
| Escape.OrbitOfZero | src/RecursiveFractalPanel.java:130-133 | Iterating from c = 0 stays at 0. |
| Escape.NeverEscapesFromZero | src/RecursiveFractalPanel.java:131-135 | No round escapes for c = 0. |
| Escape.CountOfZero | src/RecursiveFractalPanel.java:128-138 | The count of c = 0 is 0. |
| Escape.FirstIterateIsC | src/RecursiveFractalPanel.java:130-133 | The first iterate is c itself. |
| Escape.CountWhenFirstIterateEscapes | src/RecursiveFractalPanel.java:128-138 | When |c|^2 > 10 the count is 0, because counting starts at 0. |
| Colors.Wrap | src/RecursiveFractalPanel.java:113 | 32-bit wrap-around: the result is an `int`, congruent modulo 2^32, and the identity on `int`s. |
| Colors.JavaDiv | src/RecursiveFractalPanel.java:114 | Java's `/` on `int`: it agrees with Euclidean division on non-negative dividends, and on a negative dividend it rounds toward zero, so the quotient is at most 0 and `q*b` lies in `a .. a+b-1`. |
| Colors.Count2ColorAsWritten | src/RecursiveFractalPanel.java:109-118 | `count2Color` as written: count 0 is black, and every count from 0 to the overflow limit gives a legal colour, so the constructor never throws there. |
| Colors.MixedBlueIsChannel | src/RecursiveFractalPanel.java:117 | The blue formula as written, which mixes the band of `c2` with the remainder of `c1`, still gives a value in 0..255 when `c1` and `c2` are non-negative. |
| Colors.JavaRem | src/RecursiveFractalPanel.java:115-117 | Java's `%` completes `/`: a == (a/b)*b + a%b, and |a%b| < b. |
| Colors.ChannelsAreTriangles | src/RecursiveFractalPanel.java:115-117 | For n >= 0 the two channel formulas are the 512-periodic triangle wave 0..255..0 and its mirror image, so they stay in 0..255. |
| Colors.Count2Color | src/RecursiveFractalPanel.java:109-118 | Corrected `count2Color`, with blue reading `c2` on every band (see Findings). Count 0 is black. Every count from 1 to the overflow limit gives a legal colour: red = 255 - T(count), green = T(5*count), blue = T(count/8), where T is the triangle wave. |
| Colors.OnlyZeroIsBlack | src/RecursiveFractalPanel.java:109-118 | Below 2048, black is drawn exactly for count 0. |
| Colors.AsWrittenAgreesBelow2048 | src/RecursiveFractalPanel.java:115-117 | The source's formula and the corrected one agree on every count below 2048. |
| Colors.TriangleStep | src/RecursiveFractalPanel.java:101-105 | The triangle wave moves by at most 1 per step. |
| Colors.TriangleIsLipschitz | src/RecursiveFractalPanel.java:101-105 | The triangle wave moves by at most k over k steps. |
| Colors.NeighbouringCountsHaveSimilarColors | src/RecursiveFractalPanel.java:101-105 | Neighbouring counts get similar colours: red and blue differ by at most 1, green by at most 5. |
| Colors.AsWrittenBlueJumps | src/RecursiveFractalPanel.java:117 | As written, blue jumps from 0 to 251 between counts 2099 and 2100. |
| Colors.NegativeCountThrows | src/RecursiveFractalPanel.java:109-118 | A negative count makes the `Color` constructor throw, in both versions. |
| Colors.OverflowingCountThrows | src/RecursiveFractalPanel.java:113-117 | Just past the overflow limit, `5*count` wraps negative and the constructor throws, in both versions. |
| Scans.ColorForCount | src/RecursiveFractalPanel.java:109-118 | On every count `countStepsToExit` can return, the colour is legal, it is black exactly for 0, and it is the colour `count2Color` as written returns. |
| Scans.ColorForPoint | src/RecursiveFractalPanel.java:147-150 | The colour of a point is legal, and it is black exactly when its count is 0. |
| Scans.GetColorForPixel | src/RecursiveFractalPanel.java:147-150 | The colour of a pixel is legal, and it is black exactly when the count of the point under it is 0. |
| Scans.CentreOfDefaultViewIsBlack | src/RecursiveFractalPanel.java:79-161 | At the reset view, the middle pixel of an even-sized panel shows 0 and is drawn black. |
| Scans.RowMajorOrder | src/RecursiveFractalPanel.java:437-438 | Row-major visiting order is the order of the index y*width + x. |
| Scans.PerformTraditionalScan | src/RecursiveFractalPanel.java:434-453 | Exactly the pixels whose row-major index is below the budget get their colour, and all others keep their value. The scan finishes iff the budget covers the image. An empty image is unchanged. |
| Pixelated.MultiplesInWindow | src/RecursiveFractalPanel.java:472-473 | Two grid points of one pass less than a block apart coincide. |
| Pixelated.NextMultiple | src/RecursiveFractalPanel.java:472-473 | Stepping by the block side stays on the grid. |
| Pixelated.FillAtGridPoint | src/RecursiveFractalPanel.java:479-484 | Filling the block at one grid point changes no other grid point of the same pass. |
| Pixelated.SkippedLiesOnFirstGrid | src/RecursiveFractalPanel.java:477 | A pixel skipped by the first pass is a multiple of the initial `previous_resolution`. |
| Pixelated.PaintRow | src/RecursiveFractalPanel.java:473-485 | One row of a pass polls at most up to the budget, and exactly to it when interrupted. It polls at most `width` times, and an interrupted row had a grid point left to visit. Uninterrupted, the row's grid points off the previous grid get their own colour and every other grid point keeps its value. |
| Pixelated.PaintPass | src/RecursiveFractalPanel.java:472-485 | One pass, row after row: the same budget rule, with at most one poll per pixel, and an interrupted pass had a grid point left to visit. Uninterrupted, every grid point of the pass that is off the previous grid gets its own colour, and every other grid point keeps its value. |
| Pixelated.PassExtendsPicture | src/RecursiveFractalPanel.java:470-488 | After a finished pass, each grid point of the next pass holds its old value if every pass so far skipped it, and its own colour otherwise. |
| Pixelated.LastPassCoversAll | src/RecursiveFractalPanel.java:470-490 | Once the side reaches 0 every pixel is a grid point, so the picture is complete. |
| Pixelated.Passes | src/RecursiveFractalPanel.java:470-490 | The poll count stays within the budget and equals it on interruption. The passes poll at most once per pixel per pass, and an interruption happens only below that bound. When the passes finish, a pixel skipped by every pass keeps its value, and every other pixel has its own colour. |
| Pixelated.PerformPixelatedScanAsWritten | src/RecursiveFractalPanel.java:460-491 | The scan as written. It polls at most once per pixel per pass, so a budget that covers this bound lets it complete. On completion, every pixel that some pass does not skip has its own colour. A pixel skipped by every pass keeps the first block's colour inside that block, and its old value outside it. |
| Pixelated.AsWrittenSkipsPixel | src/RecursiveFractalPanel.java:462-477 | In a 10 x 3 image, pixel (6, 0) is skipped by every pass and lies outside the first block. |
| Pixelated.AsWrittenRepaintsLater | src/RecursiveFractalPanel.java:462-477 | In a 1000 x 400 image, pixel (800, 0) is skipped by the first pass but not by every pass, so a later pass paints it. |
| Pixelated.PerformPixelatedScan | src/RecursiveFractalPanel.java:460-491 | The corrected scan: a budget of one poll per pixel per pass lets it complete, and on completion every pixel has its own colour. |

## Left out

- `RecursiveFractalFrame`, `paintComponent` and the drag rectangle: Swing user interface.
- `doSaveScreen`: file dialogs and image encoding are I/O.
- `setScanMode`: it stores the scan mode and raises `shouldInterrupt` and `needsRefresh`. Both flags belong to the worker thread's loop, which is left out below, and the scan mode only picks which scan that loop runs.
- The mouse and component listeners: event plumbing. Their only effect on the engine is the drag corners, which `History.UpdateMathBoundsFromMouseDrag` takes as parameters. A resize is modelled only as the `width` and `height` parameters.
- `MandelbrotThread.run`, `Thread.sleep`, `synchronized` and `repaint()`: concurrency. Interruption is the deterministic `budget` parameter of each scan.
- `performDivideAndConquerScan`: its body is an unimplemented TODO, so there is no behaviour to model.
- `Complex.magnitude` and both `toString` methods: square root and number formatting.
- IEEE-754 `double`: every coordinate is a mathematical real, so rounding, NaN and infinities are not modelled.
- Viewport.PixelXToMathX: requires `width > 0`. With width 0 the Java division yields NaN or an infinity, which reals cannot express. Viewport.PixelYToMathY likewise requires `height > 0`.
- ComplexNumbers.MagnitudeSquaredIsNonNegative: states only that re^2 + im^2 >= 0 and that it is 0 at `zero()`. It does not state that 0 is the only zero.
- Colors.Count2Color: the legal-colour promise is stated only up to the overflow limit `Integer.MAX_VALUE / 5`. Beyond it `5*count` wraps and the constructor can throw (`Colors.OverflowingCountThrows`). The counts actually produced are below 1024.
- Escape.CountStepsToExit: no particular count is claimed for specific non-trivial points, because real arithmetic is exact and doubles are not.
- Pixelated.Passes: says nothing about the image after an interruption. It bounds the polls of a complete pixelated scan (one per pixel per pass) but does not give their exact number; the same holds for `Pixelated.PerformPixelatedScan` and `Pixelated.PerformPixelatedScanAsWritten`, whose promise of completion therefore needs a budget of that bound.
- `Complex.zero()`, `one()` and `I()` cache their objects; the model's values have no identity, so the cache is invisible.

## Findings

The Javadoc of `performPixelatedScan` (src/RecursiveFractalPanel.java:455-459)
says the scan draws big blocks and then breaks them into smaller blocks until
it has made 1x1 pixel blocks. Uninterrupted, every pixel should therefore end
with its own colour, the same image the row-by-row scan draws. The code does
not keep that promise in the first case below. The model follows the code in
`Pixelated.PerformPixelatedScanAsWritten`.

| source | as written | input that shows it | evidently intended | confidence | as-written member | corrected member |
|---|---|---|---|---|---|---|
| src/RecursiveFractalPanel.java:463 | `previous_resolution` starts at twice the first block side. The first pass therefore skips every grid point whose coordinates are multiples of that doubled side, though only the origin's block was painted beforehand. Such a pixel stays stale exactly when it lies on the `previous_resolution` grid of every pass (`Pixelated.SkippedEveryPass`); otherwise a later pass paints it, as (800, 0) in a 1000 x 400 panel shows. | A 10 x 3 panel: the first side is 3 and `previous_resolution` is 6. Pixel (6, 0) is skipped in both passes and never painted. | Only the origin, whose block is painted before the passes, is skipped in the first pass. Every pixel ends with its own colour. | not executed | Pixelated.PerformPixelatedScanAsWritten, Pixelated.AsWrittenSkipsPixel, Pixelated.AsWrittenRepaintsLater | Pixelated.PerformPixelatedScan |
| src/RecursiveFractalPanel.java:117 | On falling bands of `c2 = count/8`, the blue channel uses `255 - c1%256` instead of `255 - c2%256`. | Counts 2099 and 2100 get blue 0 and 251. Counts stay below 1024 in practice, so the faulty branch is never reached. | The same triangle wave as the other channels, so blue follows `count/8` smoothly. | not executed | Colors.Count2ColorAsWritten, Colors.AsWrittenBlueJumps | Colors.Count2Color |

=== FILE: colors.dfy ===
/**
 * `count2Color`: the colour of an escape count, computed with Java `int`
 * arithmetic and handed to the `java.awt.Color(int, int, int)` constructor.
 */
module Colors {
  import opened Wrappers

  /** A colour as its three channels. */
  datatype RGB = RGB(red: int, green: int, blue: int)

  const Black: RGB := RGB(0, 0, 0)

  predicate IsChannel(v: int) { 0 <= v <= 255 }

  predicate IsColor(c: RGB) { IsChannel(c.red) && IsChannel(c.green) && IsChannel(c.blue) }

  /** `new Color(r, g, b)`, which throws `IllegalArgumentException` (here `None`) for a channel outside 0..255. */
  function NewColor(r: int, g: int, b: int): (c: Option<RGB>)
    ensures c.Some? <==> IsColor(RGB(r, g, b))
    ensures c.Some? ==> c.value == RGB(r, g, b)
  {
    if IsChannel(r) && IsChannel(g) && IsChannel(b) then Some(RGB(r, g, b)) else None
  }

  // ---------------------------------------------------------------------------
  // Java `int` arithmetic
  // ---------------------------------------------------------------------------

  const IntMin: int := -0x8000_0000
  const IntMax: int := 0x7fff_ffff

  predicate IsInt(x: int) { IntMin <= x <= IntMax }

  /** Two's-complement wrap-around of a mathematical integer into the `int` range. */
  function Wrap(x: int): (r: int)
    ensures IsInt(r)
    ensures IsInt(x) ==> r == x
    ensures (x - r) % 0x1_0000_0000 == 0
  {
    (x - IntMin) % 0x1_0000_0000 + IntMin
  }

  /** Java's `/` on `int`, which truncates toward zero (Dafny's `/` is Euclidean). */
  function JavaDiv(a: int, b: int): (q: int)
    requires b > 0
    ensures a >= 0 ==> q == a / b
    ensures a < 0 ==> q <= 0 && a <= q * b < a + b
  {
    if a >= 0 then a / b else -((-a) / b)
  }

  /** Java's `%` on `int`: its sign follows the dividend. */
  function JavaRem(a: int, b: int): (m: int)
    requires b > 0
    ensures a == JavaDiv(a, b) * b + m
    ensures a >= 0 ==> m == a % b
    ensures -b < m < b
  {
    if a >= 0 then a % b else -((-a) % b)
  }

  // ---------------------------------------------------------------------------
  // The colour map
  // ---------------------------------------------------------------------------

  /** The largest count for which `5*count` does not overflow. */
  const MaxSafeCount: int := IntMax / 5

  /**
   * The banding shape the channels follow: it climbs 0, 1, ..., 255, then
   * falls 255, 254, ..., 0, and repeats every 512 steps.
   */
  function Triangle(n: nat): int {
    var m := n % 512;
    if m < 256 then m else 511 - m
  }

  /** Java's `(n/256)%2`: 0 on a rising band, 1 on a falling one (for n >= 0). */
  function Band(n: int): int {
    JavaRem(JavaDiv(n, 256), 2)
  }

  /** The channel formula `(1 - band) * rem + band * (255 - rem)`: it climbs on even bands. */
  function Rising(n: int): int {
    (1 - Band(n)) * JavaRem(n, 256) + Band(n) * (255 - JavaRem(n, 256))
  }

  /** The channel formula `(1 - band) * (255 - rem) + band * rem`: it falls on even bands. */
  function Falling(n: int): int {
    (1 - Band(n)) * (255 - JavaRem(n, 256)) + Band(n) * JavaRem(n, 256)
  }

  /** Within a period of 512, `n` sits in half `(n/256)%2` at offset `n%256`. */
  lemma HalfPeriod(n: nat)
    ensures n % 512 == 256 * ((n / 256) % 2) + n % 256
  {
    var q, m := n / 256, n % 256;
    var k, h := q / 2, q % 2;
    assert n == 512 * k + (256 * h + m);
  }

  /** For a non-negative `n` the two channel formulas are the triangle wave and its mirror. */
  lemma ChannelsAreTriangles(n: int)
    ensures n >= 0 ==> Rising(n) == Triangle(n) && Falling(n) == 255 - Triangle(n)
    ensures n >= 0 ==> 0 <= Triangle(n) <= 255
  {
    if n >= 0 {
      HalfPeriod(n);
      var q, m := n / 256, n % 256;
      assert JavaRem(n, 256) == m && JavaDiv(n, 256) == q;
      assert Band(n) == q % 2;
      if q % 2 == 0 {
        assert Rising(n) == m && Falling(n) == 255 - m;
      } else {
        assert Rising(n) == 255 - m && Falling(n) == m;
      }
    }
  }

  /**
   * `count2Color` as written: count 0 is black; otherwise red falls as
   * `count` climbs, green follows `c1 = 5*count`, and blue follows `c2 = count/8`
   * on its rising bands but reads `c1` on its falling bands.
   */
  function Count2ColorAsWritten(count: int): (r: Option<RGB>)
    requires IsInt(count)
    ensures count == 0 ==> r == Some(Black)
    ensures 0 <= count <= MaxSafeCount ==> r.Some? && IsColor(r.value)
  {
    if count == 0 then Some(Black)
    else
      var c1 := Wrap(5 * count);
      var c2 := JavaDiv(count, 8);
      ChannelsAreTriangles(count);
      ChannelsAreTriangles(c1);
      ChannelsAreTriangles(c2);
      MixedBlueIsChannel(c1, c2);
      NewColor(Falling(count), Rising(c1), MixedBlue(c1, c2))
  }

  /**
   * The blue formula as written: the band of `c2`, with the remainder of `c2`
   * on rising bands but the remainder of `c1` on falling ones.
   */
  function MixedBlue(c1: int, c2: int): int {
    (1 - Band(c2)) * JavaRem(c2, 256) + Band(c2) * (255 - JavaRem(c1, 256))
  }

  /** On non-negative inputs the mixed blue formula still gives a channel value. */
  lemma MixedBlueIsChannel(c1: int, c2: int)
    ensures c1 >= 0 && c2 >= 0 ==> 0 <= MixedBlue(c1, c2) <= 255
  {
    if c1 >= 0 && c2 >= 0 {
      var b := Band(c2);
      assert b == (c2 / 256) % 2;
      if b == 0 {
        assert MixedBlue(c1, c2) == c2 % 256;
      } else {
        assert MixedBlue(c1, c2) == 255 - c1 % 256;
      }
    }
  }

  /**
   * `count2Color` with the blue channel reading `c2` on both kinds of band,
   * as the other two channels do. Count 0 is black; every other count up to
   * the overflow limit gives a legal colour whose channels follow the
   * triangle wave.
   */
  function Count2Color(count: int): (r: Option<RGB>)
    requires IsInt(count)
    ensures count == 0 ==> r == Some(Black)
    ensures 0 < count <= MaxSafeCount ==>
              r == Some(RGB(255 - Triangle(count), Triangle(5 * count), Triangle(count / 8)))
    ensures 0 <= count <= MaxSafeCount ==> r.Some? && IsColor(r.value)
  {
    if count == 0 then Some(Black)
    else
      var c1 := Wrap(5 * count);
      var c2 := JavaDiv(count, 8);
      ChannelsAreTriangles(count);
      ChannelsAreTriangles(c1);
      ChannelsAreTriangles(c2);
      NewColor(Falling(count), Rising(c1), Rising(c2))
  }

  /** The first band of the triangle wave is the identity. */
  lemma TriangleRisesFromZero(n: nat)
    requires n < 256
    ensures Triangle(n) == n
  {
    assert n % 512 == n;
  }

  /** Black is reserved for count 0: no positive count below 2048 is drawn black. */
  lemma OnlyZeroIsBlack(count: int)
    requires 0 <= count < 2048
    ensures Count2Color(count) == Some(Black) <==> count == 0
  {
    if count > 0 {
      var col := Count2Color(count).value;
      assert col.red == 255 - Triangle(count) && col.blue == Triangle(count / 8);
      // Blue is 0 only while count/8 is 0, and there red is still far from 0.
      if count < 8 {
        TriangleRisesFromZero(count);
        assert col.red != 0;
      } else {
        TriangleRisesFromZero(count / 8);
        assert col.blue != 0;
      }
    }
  }

  /**
   * The two versions differ only on falling bands of `c2 = count/8`, which
   * begin at count 2048; below that they agree.
   */
  lemma AsWrittenAgreesBelow2048(count: int)
    requires 0 <= count < 2048
    ensures Count2ColorAsWritten(count) == Count2Color(count)
  {
    assert Band(JavaDiv(count, 8)) == 0;
  }

  /** The triangle wave moves by at most one per step... */
  lemma TriangleStep(n: nat)
    ensures -1 <= Triangle(n + 1) - Triangle(n) <= 1
  {
    if n % 512 != 511 {
      assert (n + 1) % 512 == n % 512 + 1;
    } else {
      assert (n + 1) % 512 == 0;
    }
  }

  /** ... and so by at most k over k steps. */
  lemma {:induction false} TriangleIsLipschitz(n: nat, k: nat)
    ensures -(k as int) <= Triangle(n + k) - Triangle(n) <= k
  {
    if k > 0 {
      TriangleIsLipschitz(n, k - 1);
      TriangleStep(n + k - 1);
    }
  }

  /**
   * Neighbouring positive counts get similar colours: red and blue move by at
   * most 1 and green by at most 5.
   */
  lemma NeighbouringCountsHaveSimilarColors(count: int)
    requires 0 < count && count + 1 <= MaxSafeCount
    ensures var a, b := Count2Color(count).value, Count2Color(count + 1).value;
            && -1 <= b.red - a.red <= 1
            && -5 <= b.green - a.green <= 5
            && -1 <= b.blue - a.blue <= 1
  {
    var n := count + 1;
    var a, b := Count2Color(count).value, Count2Color(n).value;
    assert a == RGB(255 - Triangle(count), Triangle(5 * count), Triangle(count / 8));
    assert b == RGB(255 - Triangle(n), Triangle(5 * n), Triangle(n / 8));
    TriangleStep(count);
    assert 5 * n == 5 * count + 5;
    TriangleIsLipschitz(5 * count, 5);
    NextEighth(count);
    if n / 8 != count / 8 {
      TriangleStep(count / 8);
    }
  }

  /** Adding one to `n` moves `n / 8` up by one at most. */
  lemma NextEighth(n: nat)
    ensures (n + 1) / 8 == n / 8 || (n + 1) / 8 == n / 8 + 1
  {
    var q, m := n / 8, n % 8;
    if m < 7 {
      assert n + 1 == 8 * q + (m + 1);
    } else {
      assert n + 1 == 8 * (q + 1);
    }
  }

  /**
   * As written, the blue channel jumps between neighbouring counts on a
   * falling band of `c2`: from 0 at count 2099 to 251 at count 2100.
   */
  lemma AsWrittenBlueJumps()
    ensures Count2ColorAsWritten(2099) == Some(RGB(204, 255, 0))
    ensures Count2ColorAsWritten(2100) == Some(RGB(203, 251, 251))
  {
  }

  /** Java's `%` keeps the sign of a negative count, and the `Color` constructor then throws. */
  lemma NegativeCountThrows()
    ensures Count2Color(-1) == None
    ensures Count2ColorAsWritten(-1) == None
  {
  }

  /**
   * Just past `MaxSafeCount`, `5*count` wraps to a negative `int`; Java's `%`
   * then yields a negative remainder, the green channel comes out as -1017,
   * and the `Color` constructor throws. The bound in `Count2Color`'s contract
   * is therefore needed.
   */
  lemma OverflowingCountThrows()
    ensures Wrap(5 * (MaxSafeCount + 1)) == -2147483646
    ensures Count2Color(MaxSafeCount + 1) == None
    ensures Count2ColorAsWritten(MaxSafeCount + 1) == None
  {
  }
}

=== FILE: complex.dfy ===
/**
 * Immutable complex numbers over the reals, mirroring the value class `Complex`.
 * Java's `double` is modelled as `real`; rounding is not modelled.
 */
module ComplexNumbers {

  datatype Complex = Complex(re: real, im: real)

  /** `plus`: componentwise sum. */
  function Plus(a: Complex, b: Complex): Complex {
    Complex(a.re + b.re, a.im + b.im)
  }

  /** `times(Complex)`: the complex product. */
  function Times(a: Complex, b: Complex): Complex {
    Complex(a.re * b.re - a.im * b.im, a.re * b.im + a.im * b.re)
  }

  /** `times(double)`: scaling by a real factor. */
  function Scale(a: Complex, n: real): Complex {
    Complex(n * a.re, n * a.im)
  }

  /** `squared`: the number multiplied by itself. */
  function Squared(a: Complex): Complex {
    Times(a, a)
  }

  /** `magnitude_squared`: the squared modulus, used instead of the modulus to avoid a square root. */
  function MagnitudeSquared(a: Complex): real {
    a.re * a.re + a.im * a.im
  }

  /** The cached constants `zero()`, `one()` and `I()`. */
  function Zero(): Complex { Complex(0.0, 0.0) }
  function One(): Complex { Complex(1.0, 0.0) }
  function I(): Complex { Complex(0.0, 1.0) }

  lemma PlusIsAbelian(a: Complex, b: Complex, c: Complex)
    ensures Plus(a, b) == Plus(b, a)
    ensures Plus(Plus(a, b), c) == Plus(a, Plus(b, c))
    ensures Plus(a, Zero()) == a
    ensures Plus(a, Scale(a, -1.0)) == Zero()
  {
  }

  lemma TimesIsCommutativeRing(a: Complex, b: Complex, c: Complex)
    ensures Times(a, b) == Times(b, a)
    ensures Times(Times(a, b), c) == Times(a, Times(b, c))
    ensures Times(a, Plus(b, c)) == Plus(Times(a, b), Times(a, c))
    ensures Times(a, One()) == a
    ensures Times(a, Zero()) == Zero()
  {
  }

  /** The imaginary unit squares to minus one. */
  lemma ImaginaryUnitSquared()
    ensures Squared(I()) == Scale(One(), -1.0)
    ensures MagnitudeSquared(I()) == 1.0
  {
    assert Squared(I()) == Complex(0.0 * 0.0 - 1.0 * 1.0, 0.0 * 1.0 + 1.0 * 0.0) == Complex(-1.0, 0.0);
    assert Scale(One(), -1.0) == Complex(-1.0, 0.0);
  }

  /** Both `times` overloads agree: scaling by `n` is multiplying by the real number `n`. */
  lemma ScaleIsTimesReal(a: Complex, n: real)
    ensures Scale(a, n) == Times(Complex(n, 0.0), a)
    ensures Scale(a, 1.0) == a
  {
  }

  /** The squared modulus is never negative, and is zero at zero. */
  lemma MagnitudeSquaredIsNonNegative(a: Complex)
    ensures MagnitudeSquared(a) >= 0.0
    ensures MagnitudeSquared(Zero()) == 0.0
  {
  }

  /** The squared modulus is multiplicative, so `|z^2|^2 == (|z|^2)^2`. */
  lemma MagnitudeSquaredIsMultiplicative(a: Complex, b: Complex)
    ensures MagnitudeSquared(Times(a, b)) == MagnitudeSquared(a) * MagnitudeSquared(b)
    ensures MagnitudeSquared(Squared(a)) == MagnitudeSquared(a) * MagnitudeSquared(a)
  {
    var p, q, r, s := a.re, a.im, b.re, b.im;
    calc {
      MagnitudeSquared(Times(a, b));
      (p * r - q * s) * (p * r - q * s) + (p * s + q * r) * (p * s + q * r);
      p * p * r * r + q * q * s * s + p * p * s * s + q * q * r * r;
      (p * p + q * q) * (r * r + s * s);
    }
  }
}

=== FILE: complex_range.dfy ===
/**
 * The value class `ComplexRange`: a pair of corners, stored exactly as given.
 * The constructor does not order the corners; `Viewport.SetMathBounds` does that.
 * The panel's stacks hold the value form `ComplexRange`; only `Equals`, whose
 * answer depends on object identity, works on the heap form `RangeObject`.
 */
module Ranges {
  import opened ComplexNumbers

  datatype ComplexRange = ComplexRange(min: Complex, max: Complex)

  /** A range whose `min` corner is below and to the left of its `max` corner. */
  predicate Normalised(r: ComplexRange) {
    r.min.re <= r.max.re && r.min.im <= r.max.im
  }

  /**
   * `getMin` and `getMax` hand back the corners passed to the constructor, even
   * when they are out of order.
   */
  lemma CornersAreStoredAsGiven(a: Complex, b: Complex)
    ensures ComplexRange(a, b).min == a && ComplexRange(a, b).max == b
    ensures Normalised(ComplexRange(a, b)) <==> a.re <= b.re && a.im <= b.im
  {
  }

  // ---------------------------------------------------------------------------
  // `equals` compares references, not numbers: `Complex` does not override
  // `equals`, so `min.equals(that.min)` is Java's identity test. To state that,
  // the objects involved carry a heap address beside their value.
  // ---------------------------------------------------------------------------

  /** A `Complex` object on the heap. */
  datatype ComplexObject = ComplexObject(addr: nat, value: Complex)

  /** A `ComplexRange` object on the heap, holding references to its corners. */
  datatype RangeObject = RangeObject(addr: nat, min: ComplexObject, max: ComplexObject) {
    function Value(): ComplexRange {
      ComplexRange(min.value, max.value)
    }
  }

  /** The argument of `equals(Object o)`: null, another range, or an object of some other class. */
  datatype AnyObject = Null | Range(obj: RangeObject) | OtherClass(addr: nat)

  /** Two references to one heap object see the same contents. */
  predicate SameAddressSameObject(a: RangeObject, b: RangeObject) {
    (a.addr == b.addr ==> a == b)
    && (a.min.addr == b.min.addr ==> a.min == b.min)
    && (a.max.addr == b.max.addr ==> a.max == b.max)
  }

  /** `ComplexRange.equals`. */
  function Equals(self: RangeObject, o: AnyObject): (r: bool)
    ensures o.Null? || o.OtherClass? ==> !r
    ensures o == Range(self) ==> r
    ensures o.Range? && SameAddressSameObject(self, o.obj) ==>
              (r <==> self.min.addr == o.obj.min.addr && self.max.addr == o.obj.max.addr)
  {
    if o.Range? && o.obj.addr == self.addr then true
    else if !o.Range? then false
    else self.min.addr == o.obj.min.addr && self.max.addr == o.obj.max.addr
  }

  /**
   * On a consistent heap `equals` implies equal coordinates, but not conversely:
   * two ranges built from separately allocated corners with the same numbers
   * are not `equals`.
   */
  lemma EqualsIsIdentityOfCorners(a: RangeObject, b: RangeObject)
    requires SameAddressSameObject(a, b)
    ensures Equals(a, Range(b)) ==> a.Value() == b.Value()
    ensures Equals(a, Range(b)) <==> Equals(b, Range(a))
  {
  }

  lemma SameNumbersAreNotEqual()
    ensures var z1 := ComplexObject(1, Zero());
            var z2 := ComplexObject(2, Zero());
            var a := RangeObject(10, z1, z1);
            var b := RangeObject(11, z2, z2);
            SameAddressSameObject(a, b) && a.Value() == b.Value() && !Equals(a, Range(b))
  {
  }
}

=== FILE: escape.dfy ===
/**
 * The escape-time count of `countStepsToExit`: iterate z -> z^2 + c from
 * z = 0 and report the step at which |z|^2 first exceeds the threshold.
 */
module Escape {
  import opened ComplexNumbers

  /** `max_count`: the number of iterations tried before giving up. */
  const MaxCount: int := 1024
  /** `threshold_squared`: escape means |z|^2 > 10. */
  const ThresholdSquared: real := 10.0

  /** The n-th iterate of z -> z^2 + c, starting from z = 0. */
  function Orbit(c: Complex, n: nat): Complex {
    if n == 0 then Zero() else Plus(Squared(Orbit(c, n - 1)), c)
  }

  /** The iterate computed in loop round `k` (that is, the (k+1)-th iterate) is beyond the threshold. */
  predicate EscapesAt(c: Complex, k: nat) {
    MagnitudeSquared(Orbit(c, k + 1)) > ThresholdSquared
  }

  /**
   * The loop of `countStepsToExit` from round `count` on: the first round at
   * or after `count` whose iterate escapes, or 0 when none before `MaxCount` does.
   */
  function CountFrom(c: Complex, count: nat): (r: int)
    requires count <= MaxCount
    ensures 0 <= r < MaxCount
    ensures (count <= r && EscapesAt(c, r) && forall j :: count <= j < r ==> !EscapesAt(c, j))
         || (r == 0 && forall j :: count <= j < MaxCount ==> !EscapesAt(c, j))
    decreases MaxCount - count
  {
    if count == MaxCount then 0
    else if EscapesAt(c, count) then count
    else CountFrom(c, count + 1)
  }

  /**
   * `countStepsToExit`: the number of the first round whose iterate escapes,
   * or 0 when none of the `MaxCount` rounds escapes. The count starts at 0, so
   * 0 is also returned when the very first iterate (c itself) escapes.
   */
  function CountStepsToExit(c: Complex): (r: int)
    ensures 0 <= r < MaxCount
    ensures r > 0 ==> EscapesAt(c, r) && forall j :: 0 <= j < r ==> !EscapesAt(c, j)
    ensures r == 0 <==> EscapesAt(c, 0) || forall j :: 0 <= j < MaxCount ==> !EscapesAt(c, j)
  {
    CountFrom(c, 0)
  }

  /**
   * The loop itself, carrying `z` from round to round as the Java code does;
   * it returns the count the recursive definition above describes.
   */
  method CountStepsToExitLoop(c: Complex) returns (r: int)
    ensures r == CountStepsToExit(c)
  {
    var z := Zero();
    var count := 0;
    while count < MaxCount
      invariant 0 <= count <= MaxCount
      invariant z == Orbit(c, count)
      invariant CountFrom(c, 0) == CountFrom(c, count)
    {
      z := Plus(Squared(z), c);
      if MagnitudeSquared(z) > ThresholdSquared {
        return count;
      }
      count := count + 1;
    }
    return 0;
  }

  /** The orbit of 0 stays at 0. */
  lemma {:induction false} OrbitOfZero(n: nat)
    ensures Orbit(Zero(), n) == Zero()
  {
    if n > 0 {
      OrbitOfZero(n - 1);
    }
  }

  /** The origin never escapes, so its count is 0 ("in the set"). */
  lemma CountOfZero(c: Complex)
    requires c == Zero()
    ensures CountStepsToExit(c) == 0
  {
    NeverEscapesFromZero(c);
  }

  lemma NeverEscapesFromZero(c: Complex)
    requires c == Zero()
    ensures forall j: nat :: !EscapesAt(c, j)
  {
    forall j: nat
      ensures !EscapesAt(c, j)
    {
      OrbitOfZero(j + 1);
    }
  }

  /** The first iterate is c itself, so a c beyond the threshold gets count 0 as well. */
  lemma CountWhenFirstIterateEscapes(c: Complex)
    requires MagnitudeSquared(c) > ThresholdSquared
    ensures CountStepsToExit(c) == 0
  {
    FirstIterateIsC(c);
  }

  lemma FirstIterateIsC(c: Complex)
    ensures Orbit(c, 1) == c
  {
    assert Orbit(c, 0) == Zero();
    assert Orbit(c, 1) == Plus(Squared(Zero()), c);
    assert Squared(Zero()) == Zero();
    assert Plus(Zero(), c) == c;
  }
}

=== FILE: history.dfy ===
/**
 * The view-history commands of `RecursiveFractalPanel`: reset, undo, redo and
 * the box zoom that follows a mouse drag. Each is a function from the panel
 * state before the command to the state after it.
 */
module History {
  import opened ComplexNumbers
  import opened Ranges
  import opened Viewport

  /** The reset view: real and imaginary parts both in [-2, 2]. */
  const DefaultMin: Complex := Complex(-2.0, -2.0)
  const DefaultMax: Complex := Complex(2.0, 2.0)

  predicate AtDefaultBounds(p: Panel) {
    p.minMathX == -2.0 && p.minMathY == -2.0 && p.maxMathX == 2.0 && p.maxMathY == 2.0
  }

  /**
   * What holds in every state the panel can reach: ordered bounds, ordered
   * ranges on both stacks, and each menu item enabled exactly when its stack
   * has something to pop.
   */
  predicate Valid(p: Panel) {
    && BoundsOrdered(p)
    && (forall i :: 0 <= i < |p.undoStack| ==> Normalised(p.undoStack[i]))
    && (forall i :: 0 <= i < |p.redoStack| ==> Normalised(p.redoStack[i]))
    && p.undoMenuEnabled == (|p.undoStack| > 0)
    && p.redoMenuEnabled == (|p.redoStack| > 0)
  }

  /** `performReset`: go back to the default view, unless already there. */
  function PerformReset(p: Panel): (r: Panel)
    ensures AtDefaultBounds(r)
    ensures AtDefaultBounds(p) ==> r == p
    ensures !AtDefaultBounds(p) ==>
              && r.undoStack == p.undoStack + [CurrentRange(p)]
              && r.redoStack == []
              && r.undoMenuEnabled && !r.redoMenuEnabled
              && r.shouldInterrupt && r.needsRefresh
  {
    if AtDefaultBounds(p) then p
    else
      var pushed := p.(undoStack := p.undoStack + [CurrentRange(p)], undoMenuEnabled := true);
      SetMathBounds(pushed, DefaultMin, DefaultMax).(redoStack := [], redoMenuEnabled := false)
  }

  /**
   * `performUndo`: on an empty undo stack nothing happens; otherwise the current
   * view goes on the redo stack and the most recent undo entry becomes the view,
   * its corners put in order on each axis as `setMathBounds` does.
   */
  function PerformUndo(p: Panel): (r: Panel)
    ensures |p.undoStack| == 0 ==> r == p
    ensures |p.undoStack| > 0 ==>
              && r.undoStack == p.undoStack[..|p.undoStack| - 1]
              && r.redoStack == p.redoStack + [CurrentRange(p)]
              && BoundsOrdered(r)
              && (Normalised(p.undoStack[|p.undoStack| - 1]) ==> CurrentRange(r) == p.undoStack[|p.undoStack| - 1])
              && multiset{r.minMathX, r.maxMathX}
                   == multiset{p.undoStack[|p.undoStack| - 1].min.re, p.undoStack[|p.undoStack| - 1].max.re}
              && multiset{r.minMathY, r.maxMathY}
                   == multiset{p.undoStack[|p.undoStack| - 1].min.im, p.undoStack[|p.undoStack| - 1].max.im}
              && r.undoMenuEnabled == (|r.undoStack| > 0) && r.redoMenuEnabled
              && r.shouldInterrupt && r.needsRefresh
  {
    if |p.undoStack| == 0 then p
    else
      var pushed := p.(redoStack := p.redoStack + [CurrentRange(p)], redoMenuEnabled := true);
      var last := p.undoStack[|p.undoStack| - 1];
      var popped := pushed.(undoStack := p.undoStack[..|p.undoStack| - 1]);
      var r := SetMathBounds(popped, last.min, last.max);
      r.(undoMenuEnabled := |r.undoStack| > 0)
  }

  /** `performRedo`: the mirror image of `performUndo`. */
  function PerformRedo(p: Panel): (r: Panel)
    ensures |p.redoStack| == 0 ==> r == p
    ensures |p.redoStack| > 0 ==>
              && r.redoStack == p.redoStack[..|p.redoStack| - 1]
              && r.undoStack == p.undoStack + [CurrentRange(p)]
              && BoundsOrdered(r)
              && (Normalised(p.redoStack[|p.redoStack| - 1]) ==> CurrentRange(r) == p.redoStack[|p.redoStack| - 1])
              && multiset{r.minMathX, r.maxMathX}
                   == multiset{p.redoStack[|p.redoStack| - 1].min.re, p.redoStack[|p.redoStack| - 1].max.re}
              && multiset{r.minMathY, r.maxMathY}
                   == multiset{p.redoStack[|p.redoStack| - 1].min.im, p.redoStack[|p.redoStack| - 1].max.im}
              && r.redoMenuEnabled == (|r.redoStack| > 0) && r.undoMenuEnabled
              && r.shouldInterrupt && r.needsRefresh
  {
    if |p.redoStack| == 0 then p
    else
      var pushed := p.(undoStack := p.undoStack + [CurrentRange(p)], undoMenuEnabled := true);
      var last := p.redoStack[|p.redoStack| - 1];
      var popped := pushed.(redoStack := p.redoStack[..|p.redoStack| - 1]);
      var r := SetMathBounds(popped, last.min, last.max);
      r.(redoMenuEnabled := |r.redoStack| > 0)
  }

  /**
   * `updateMathBoundsFromMouseDrag`: zoom to the rectangle between the pixel
   * where the drag started and the pixel where it ended. A drag with no width
   * or no height does nothing; otherwise the old view is recorded for undo and
   * the redo history is discarded. The panel's size is passed explicitly.
   */
  function UpdateMathBoundsFromMouseDrag(p: Panel, startX: int, startY: int, endX: int, endY: int,
                                         width: int, height: int): (r: Panel)
    requires width > 0 && height > 0
    ensures startX == endX || startY == endY ==> r == p
    ensures startX != endX && startY != endY ==>
              && r.undoStack == p.undoStack + [CurrentRange(p)]
              && r.redoStack == []
              && r.undoMenuEnabled && !r.redoMenuEnabled
              && r.shouldInterrupt && r.needsRefresh
              && BoundsOrdered(r)
              && multiset{r.minMathX, r.maxMathX}
                   == multiset{PixelXToMathX(p, startX, width), PixelXToMathX(p, endX, width)}
              && multiset{r.minMathY, r.maxMathY}
                   == multiset{PixelYToMathY(p, startY, height), PixelYToMathY(p, endY, height)}
  {
    if startX != endX && startY != endY then
      var pushed := p.(undoStack := p.undoStack + [CurrentRange(p)], undoMenuEnabled := true);
      var c1 := Complex(PixelXToMathX(p, startX, width), PixelYToMathY(p, startY, height));
      var c2 := Complex(PixelXToMathX(p, endX, width), PixelYToMathY(p, endY, height));
      SetMathBounds(pushed, c1, c2).(redoStack := [], redoMenuEnabled := false)
    else
      p
  }

  /** The panel as its constructor leaves it: all bounds 0.0, then `performReset`. */
  function NewPanel(): Panel {
    PerformReset(Panel(0.0, 0.0, 0.0, 0.0, [], [], false, false, false, false))
  }

  // ---------------------------------------------------------------------------
  // Properties
  // ---------------------------------------------------------------------------

  /** A new panel shows the default view with the all-zero range as its only undo entry. */
  lemma NewPanelState()
    ensures AtDefaultBounds(NewPanel())
    ensures NewPanel().undoStack == [ComplexRange(Zero(), Zero())]
    ensures NewPanel().redoStack == []
    ensures Valid(NewPanel())
  {
  }

  /** Resetting twice is resetting once. */
  lemma ResetIsIdempotent(p: Panel)
    ensures PerformReset(PerformReset(p)) == PerformReset(p)
  {
  }

  lemma ResetPreservesValid(p: Panel)
    requires Valid(p)
    ensures Valid(PerformReset(p))
  {
  }

  lemma UndoPreservesValid(p: Panel)
    requires Valid(p)
    ensures Valid(PerformUndo(p))
  {
  }

  lemma RedoPreservesValid(p: Panel)
    requires Valid(p)
    ensures Valid(PerformRedo(p))
  {
  }

  lemma DragPreservesValid(p: Panel, startX: int, startY: int, endX: int, endY: int, width: int, height: int)
    requires Valid(p) && width > 0 && height > 0
    ensures Valid(UpdateMathBoundsFromMouseDrag(p, startX, startY, endX, endY, width, height))
  {
  }

  /**
   * Undo followed by redo restores the view and both stacks; only the two
   * render flags are left raised.
   */
  lemma UndoThenRedoRestores(p: Panel)
    requires Valid(p) && |p.undoStack| > 0
    ensures PerformRedo(PerformUndo(p)) == p.(shouldInterrupt := true, needsRefresh := true)
  {
    var u := PerformUndo(p);
    var n := |p.undoStack|;
    assert u.redoStack[|u.redoStack| - 1] == CurrentRange(p);
    assert u.redoStack[..|u.redoStack| - 1] == p.redoStack;
    assert u.undoStack + [CurrentRange(u)] == p.undoStack by {
      assert CurrentRange(u) == p.undoStack[n - 1];
      assert p.undoStack == p.undoStack[..n - 1] + [p.undoStack[n - 1]];
    }
    var v := PerformRedo(u);
    assert CurrentRange(v) == CurrentRange(p);
    assert v.undoStack == p.undoStack && v.redoStack == p.redoStack;
  }

  /** Redo followed by undo restores the view and both stacks. */
  lemma RedoThenUndoRestores(p: Panel)
    requires Valid(p) && |p.redoStack| > 0
    ensures PerformUndo(PerformRedo(p)) == p.(shouldInterrupt := true, needsRefresh := true)
  {
    var u := PerformRedo(p);
    var n := |p.redoStack|;
    assert u.undoStack[|u.undoStack| - 1] == CurrentRange(p);
    assert u.undoStack[..|u.undoStack| - 1] == p.undoStack;
    assert u.redoStack + [CurrentRange(u)] == p.redoStack by {
      assert CurrentRange(u) == p.redoStack[n - 1];
      assert p.redoStack == p.redoStack[..n - 1] + [p.redoStack[n - 1]];
    }
    var v := PerformUndo(u);
    assert CurrentRange(v) == CurrentRange(p);
    assert v.undoStack == p.undoStack && v.redoStack == p.redoStack;
  }

  /** Undoing a zoom brings back the view before it and leaves the zoomed view to redo. */
  lemma UndoReversesDrag(p: Panel, startX: int, startY: int, endX: int, endY: int, width: int, height: int)
    requires Valid(p) && width > 0 && height > 0 && startX != endX && startY != endY
    ensures var z := UpdateMathBoundsFromMouseDrag(p, startX, startY, endX, endY, width, height);
            var u := PerformUndo(z);
            && CurrentRange(u) == CurrentRange(p)
            && u.undoStack == p.undoStack
            && u.redoStack == [CurrentRange(z)]
  {
    var z := UpdateMathBoundsFromMouseDrag(p, startX, startY, endX, endY, width, height);
    assert z.undoStack[..|z.undoStack| - 1] == p.undoStack;
  }

  /**
   * A drag that stays inside the panel zooms IN: the new view lies inside the
   * old one, and it is not degenerate when the old view was not.
   */
  lemma DragZoomsIn(p: Panel, startX: int, startY: int, endX: int, endY: int, width: int, height: int)
    requires Valid(p) && width > 0 && height > 0 && startX != endX && startY != endY
    requires 0 <= startX <= width && 0 <= endX <= width
    requires 0 <= startY <= height && 0 <= endY <= height
    ensures var z := UpdateMathBoundsFromMouseDrag(p, startX, startY, endX, endY, width, height);
            && p.minMathX <= z.minMathX <= z.maxMathX <= p.maxMathX
            && p.minMathY <= z.minMathY <= z.maxMathY <= p.maxMathY
            && (p.minMathX < p.maxMathX ==> z.minMathX < z.maxMathX)
            && (p.minMathY < p.maxMathY ==> z.minMathY < z.maxMathY)
  {
    PixelXToMathXStaysInView(p, startX, width);
    PixelXToMathXStaysInView(p, endX, width);
    PixelYToMathYStaysInView(p, startY, height);
    PixelYToMathYStaysInView(p, endY, height);
    if startX < endX {
      PixelXToMathXIsMonotonic(p, startX, endX, width);
    } else {
      PixelXToMathXIsMonotonic(p, endX, startX, width);
    }
    if startY < endY {
      PixelYToMathYIsAntitonic(p, startY, endY, height);
    } else {
      PixelYToMathYIsAntitonic(p, endY, startY, height);
    }
  }
}

=== FILE: pixelated.dfy ===
/**
 * `performPixelatedScan`: paint the image in passes of square blocks whose
 * side halves from pass to pass. Pass `i` visits the grid of multiples of
 * its block side `res` in row-major order, polls the interrupt flag at each
 * grid point, skips the grid points that were also grid points of the
 * previous pass, and fills the block at every other grid point with that
 * point's colour.
 */
module Pixelated {
  import opened Colors
  import opened Viewport
  import opened Scans

  /** `d` is a positive divisor of `a`. */
  predicate Divides(d: int, a: int) {
    d > 0 && a % d == 0
  }

  /** (x, y) is a grid point of the pass whose block side is `r`. */
  predicate OnGrid(r: int, x: int, y: int) {
    Divides(r, x) && Divides(r, y)
  }

  /**
   * `Graphics.fillRect(x0, y0, size, size)` in colour `c`: the pixels of the
   * square inside the image take `c`, every other pixel keeps its value.
   */
  function FillRect(img: Image, width: nat, height: nat, x0: int, y0: int, size: int, c: RGB): (r: Image)
    requires IsImage(img, width, height)
    ensures IsImage(r, width, height)
    ensures forall y, x :: 0 <= y < height && 0 <= x < width ==>
              r[y][x] == if x0 <= x < x0 + size && y0 <= y < y0 + size then c else img[y][x]
  {
    seq(height, y requires 0 <= y < height =>
      seq(width, x requires 0 <= x < width =>
        if x0 <= x < x0 + size && y0 <= y < y0 + size then c else img[y][x]))
  }

  // ---------------------------------------------------------------------------
  // The passes, indexed from 0
  // ---------------------------------------------------------------------------

  /** The block side of pass `i`: the first side halved `i` times (Java's `resolution /= 2`). */
  function Res(r0: nat, i: nat): nat {
    if i == 0 then r0 else Res(r0, i - 1) / 2
  }

  /** `previous_resolution` during pass `i`: `prev0` in the first pass, then the side of the pass before. */
  function Prev(r0: nat, prev0: nat, i: nat): nat {
    if i == 0 then prev0 else Res(r0, i - 1)
  }

  /** The number of passes: the loop runs while the side is positive. */
  function PassCount(r: nat): nat {
    if r == 0 then 0 else 1 + PassCount(r / 2)
  }

  /** Pixel (x, y) was skipped by each of the first `i` passes, which pass `j` does to the grid points of `Prev(j)`. */
  predicate SkippedSoFar(x: int, y: int, r0: nat, prev0: nat, i: nat) {
    i == 0 || (SkippedSoFar(x, y, r0, prev0, i - 1) && OnGrid(Prev(r0, prev0, i - 1), x, y))
  }

  /** Pixel (x, y) was skipped by every pass, so no pass ever painted it. */
  predicate SkippedEveryPass(x: int, y: int, r0: nat, prev0: nat) {
    SkippedSoFar(x, y, r0, prev0, PassCount(r0))
  }

  /** A positive multiple of `r` is at least `r`. */
  lemma {:induction false} MultipleAtLeast(r: int, k: int)
    requires r > 0 && k >= 1
    ensures r * k >= r
  {
    if k > 1 {
      MultipleAtLeast(r, k - 1);
      assert r * k == r * (k - 1) + r;
    }
  }

  /** Two multiples of `r` less than `r` apart are equal. */
  lemma MultiplesInWindow(a: int, b: int, r: int)
    requires Divides(r, a) && Divides(r, b) && a <= b < a + r
    ensures a == b
  {
    var qa, qb := a / r, b / r;
    assert a == r * qa;
    assert b == r * qb;
    assert b - a == r * (qb - qa);
    if qb > qa {
      MultipleAtLeast(r, qb - qa);
    } else if qb < qa {
      MultipleAtLeast(r, qa - qb);
    }
  }

  /** The next grid point along an axis is again a multiple of the side. */
  lemma NextMultiple(a: int, r: int)
    requires Divides(r, a)
    ensures Divides(r, a + r)
  {
    var q := a / r;
    assert a == r * q;
    var d, m := (a + r) / r, (a + r) % r;
    assert a + r == r * d + m;
    assert m == r * (q + 1 - d);
    if q + 1 - d >= 1 {
      MultipleAtLeast(r, q + 1 - d);
    } else if q + 1 - d <= -1 {
      MultipleAtLeast(r, d - q - 1);
    }
  }

  /** Blocks of one pass do not overlap: filling the block at a grid point changes no other grid point. */
  lemma FillAtGridPoint(img: Image, width: nat, height: nat, x0: int, y0: int, r: int, c: RGB)
    requires IsImage(img, width, height) && OnGrid(r, x0, y0)
    ensures forall y, x :: 0 <= y < height && 0 <= x < width && OnGrid(r, x, y) ==>
              FillRect(img, width, height, x0, y0, r, c)[y][x] == if x == x0 && y == y0 then c else img[y][x]
  {
    forall y, x | 0 <= y < height && 0 <= x < width && OnGrid(r, x, y) && x0 <= x < x0 + r && y0 <= y < y0 + r
      ensures x == x0 && y == y0
    {
      MultiplesInWindow(x0, x, r);
      MultiplesInWindow(y0, y, r);
    }
  }

  /** A pixel skipped by the first pass lies on the grid of `prev0`. */
  lemma {:induction false} SkippedLiesOnFirstGrid(x: int, y: int, r0: nat, prev0: nat, i: nat)
    requires i >= 1 && SkippedSoFar(x, y, r0, prev0, i)
    ensures OnGrid(prev0, x, y)
  {
    if i > 1 {
      SkippedLiesOnFirstGrid(x, y, r0, prev0, i - 1);
    }
  }

  /**
   * The inner `for x` loop of one pass, over row `y` of the grid of `res`. It
   * polls once per grid point, so at most `width` times; when it is not interrupted, each grid point of
   * row `y` that is not a grid point of `prev` has its own colour, and every
   * other grid point keeps its value.
   */
  method PaintRow(img: Image, width: nat, height: nat, color: (int, int) -> RGB,
                  res: nat, prev: nat, y: int, polls0: nat, budget: nat)
    returns (out: Image, done: bool, polls: nat)
    requires IsImage(img, width, height) && res > 0 && prev > 0 && Divides(res, y)
    requires polls0 <= budget
    ensures IsImage(out, width, height)
    ensures polls0 <= polls <= budget
    ensures polls <= polls0 + width
    ensures !done ==> polls == budget && polls < polls0 + width
    ensures done ==> forall qy, qx :: 0 <= qy < height && 0 <= qx < width && OnGrid(res, qx, qy) ==>
              out[qy][qx] == if qy == y && !OnGrid(prev, qx, qy) then color(qx, qy) else img[qy][qx]
  {
    out, polls := img, polls0;
    var x := 0;
    while x < width
      invariant Divides(res, x) && x >= 0
      invariant IsImage(out, width, height)
      invariant polls0 <= polls <= budget
      invariant polls - polls0 <= x && polls <= polls0 + width
      invariant forall qy, qx :: 0 <= qy < height && 0 <= qx < width && OnGrid(res, qx, qy) ==>
                  out[qy][qx] == if qy == y && qx < x && !OnGrid(prev, qx, qy) then color(qx, qy) else img[qy][qx]
    {
      if polls == budget {
        // `shouldInterrupt` is set: return with the image as it stands.
        return out, false, polls;
      }
      polls := polls + 1;
      if !(x % prev == 0 && y % prev == 0) {
        FillAtGridPoint(out, width, height, x, y, res, color(x, y));
        out := FillRect(out, width, height, x, y, res, color(x, y));
      }
      forall qx | 0 <= qx < width && Divides(res, qx) && x <= qx < x + res
        ensures qx == x
      {
        MultiplesInWindow(x, qx, res);
      }
      NextMultiple(x, res);
      x := x + res;
    }
    done := true;
  }

  /**
   * One pass of `performPixelatedScan`, the `for y` loop over the rows of the
   * grid of `res`, polling at most once per pixel. When it is not interrupted, every grid point of `res` that
   * is not a grid point of `prev` has its own colour, and every other grid
   * point keeps its value.
   */
  method PaintPass(img: Image, width: nat, height: nat, color: (int, int) -> RGB,
                   res: nat, prev: nat, polls0: nat, budget: nat)
    returns (out: Image, done: bool, polls: nat)
    requires IsImage(img, width, height) && res > 0 && prev > 0
    requires polls0 <= budget
    ensures IsImage(out, width, height)
    ensures polls0 <= polls <= budget
    ensures polls <= polls0 + width * height
    ensures !done ==> polls == budget && polls < polls0 + width * height
    ensures done ==> forall qy, qx :: 0 <= qy < height && 0 <= qx < width && OnGrid(res, qx, qy) ==>
              out[qy][qx] == if !OnGrid(prev, qx, qy) then color(qx, qy) else img[qy][qx]
  {
    out, polls := img, polls0;
    var y := 0;
    while y < height
      invariant Divides(res, y) && y >= 0
      invariant IsImage(out, width, height)
      invariant polls0 <= polls <= budget
      invariant polls - polls0 <= y * width && polls <= polls0 + width * height
      invariant forall qy, qx :: 0 <= qy < height && 0 <= qx < width && OnGrid(res, qx, qy) ==>
                  out[qy][qx] == if qy < y && !OnGrid(prev, qx, qy) then color(qx, qy) else img[qy][qx]
    {
      var rowDone;
      out, rowDone, polls := PaintRow(out, width, height, color, res, prev, y, polls, budget);
      MulIsMonotonic(y + 1, height, width);
      MulIsMonotonic(y + 1, y + res, width);
      assert (y + 1) * width == y * width + width;
      if !rowDone {
        return out, false, polls;
      }
      forall qy | 0 <= qy < height && Divides(res, qy) && y <= qy < y + res
        ensures qy == y
      {
        MultiplesInWindow(y, qy, res);
      }
      NextMultiple(y, res);
      y := y + res;
    }
    done := true;
  }

  /**
   * One finished pass extends the picture: a grid point of pass `i + 1` that
   * pass `i` skipped keeps what earlier passes left there, and any other one
   * now has its own colour.
   */
  lemma PassExtendsPicture(img: Image, before: Image, after: Image, width: nat, height: nat,
                           color: (int, int) -> RGB, r0: nat, prev0: nat, i: nat)
    requires IsImage(img, width, height) && IsImage(before, width, height) && IsImage(after, width, height)
    requires forall y, x :: 0 <= y < height && 0 <= x < width && OnGrid(Prev(r0, prev0, i), x, y) ==>
               before[y][x] == if SkippedSoFar(x, y, r0, prev0, i) then img[y][x] else color(x, y)
    requires forall y, x :: 0 <= y < height && 0 <= x < width && OnGrid(Res(r0, i), x, y) ==>
               after[y][x] == if !OnGrid(Prev(r0, prev0, i), x, y) then color(x, y) else before[y][x]
    ensures forall y, x :: 0 <= y < height && 0 <= x < width && OnGrid(Prev(r0, prev0, i + 1), x, y) ==>
              after[y][x] == if SkippedSoFar(x, y, r0, prev0, i + 1) then img[y][x] else color(x, y)
  {
    assert Prev(r0, prev0, i + 1) == Res(r0, i);
  }

  /** After the last pass, whose successor grid is every pixel, the picture is complete. */
  lemma LastPassCoversAll(img: Image, out: Image, width: nat, height: nat,
                          color: (int, int) -> RGB, r0: nat, prev0: nat)
    requires IsImage(img, width, height) && IsImage(out, width, height)
    requires forall y, x :: 0 <= y < height && 0 <= x < width && OnGrid(1, x, y) ==>
               out[y][x] == if SkippedSoFar(x, y, r0, prev0, PassCount(r0)) then img[y][x] else color(x, y)
    ensures forall y, x :: 0 <= y < height && 0 <= x < width ==>
              out[y][x] == if SkippedEveryPass(x, y, r0, prev0) then img[y][x] else color(x, y)
  {
    forall y, x | 0 <= y < height && 0 <= x < width
      ensures OnGrid(1, x, y)
    {
    }
  }

  /**
   * The passes loop of `performPixelatedScan`, starting from side `r0` with
   * `previous_resolution` equal to `prev0`. It polls at most `budget` times,
   * and exactly `budget` times when it is interrupted, and never more than
   * once per pixel per pass, so only a smaller budget can interrupt it. When it finishes, every
   * pixel skipped by every pass still holds its value in `img`, and every
   * other pixel holds its own colour.
   */
  method Passes(img: Image, width: nat, height: nat, color: (int, int) -> RGB, r0: nat, prev0: nat, budget: nat)
    returns (out: Image, finished: bool, polls: nat)
    requires IsImage(img, width, height) && r0 > 0 && prev0 > 0
    ensures IsImage(out, width, height)
    ensures polls <= budget
    ensures polls <= PassCount(r0) * (width * height)
    ensures !finished ==> polls == budget && polls < PassCount(r0) * (width * height)
    ensures finished ==> forall y, x :: 0 <= y < height && 0 <= x < width ==>
              out[y][x] == if SkippedEveryPass(x, y, r0, prev0) then img[y][x] else color(x, y)
  {
    out, finished, polls := img, false, 0;
    var res, prev, i := r0, prev0, 0;
    while res > 0
      invariant IsImage(out, width, height)
      invariant res == Res(r0, i) && prev == Prev(r0, prev0, i) && prev > 0
      invariant i + PassCount(res) == PassCount(r0)
      invariant res == 0 ==> prev == 1
      invariant polls <= budget
      invariant polls <= i * (width * height)
      invariant forall y, x :: 0 <= y < height && 0 <= x < width && OnGrid(prev, x, y) ==>
                  out[y][x] == if SkippedSoFar(x, y, r0, prev0, i) then img[y][x] else color(x, y)
      decreases res
    {
      ghost var before := out;
      var passDone;
      out, passDone, polls := PaintPass(out, width, height, color, res, prev, polls, budget);
      assert (i + 1) * (width * height) == i * (width * height) + width * height;
      MulIsMonotonic(i + 1, PassCount(r0), width * height);
      if !passDone {
        return out, false, polls;
      }
      PassExtendsPicture(img, before, out, width, height, color, r0, prev0, i);
      prev, res, i := res, res / 2, i + 1;
    }
    LastPassCoversAll(img, out, width, height, color, r0, prev0);
    finished := true;
  }

  /** The smaller side of the image: `Math.min(getWidth(), getHeight())`. */
  function ShortSide(width: nat, height: nat): nat {
    if width <= height then width else height
  }

  /** At most one poll per pixel in each pass of the block scan. */
  function PollBound(width: nat, height: nat): nat {
    PassCount(ShortSide(width, height)) * (width * height)
  }

  /**
   * `performPixelatedScan` as written. It fills the first block (the square
   * of the short side at the origin) with the colour of pixel (0, 0) without
   * polling, then runs the passes with `previous_resolution` starting at twice
   * the short side. On completion, a pixel skipped by every pass keeps either
   * the first block's colour or its old value; every other pixel has its own
   * colour. It polls at most once per pixel per pass, so a budget covering
   * that many polls lets it complete. An empty image is left as it is.
   */
  method PerformPixelatedScanAsWritten(p: Panel, img: Image, width: nat, height: nat, budget: nat)
    returns (out: Image, finished: bool, polls: nat)
    requires IsImage(img, width, height)
    ensures IsImage(out, width, height)
    ensures polls <= budget && (!finished ==> polls == budget)
    ensures polls <= PollBound(width, height)
    ensures budget >= PollBound(width, height) ==> finished
    ensures width == 0 || height == 0 ==> out == img && finished && polls == 0
    ensures finished && width > 0 && height > 0 ==>
              var r0 := ShortSide(width, height);
              forall y, x :: 0 <= y < height && 0 <= x < width ==>
                out[y][x] == if !SkippedEveryPass(x, y, r0, 2 * r0) then GetColorForPixel(p, width, height, x, y)
                             else if x < r0 && y < r0 then GetColorForPixel(p, width, height, 0, 0)
                             else img[y][x]
  {
    var r0 := ShortSide(width, height);
    if r0 == 0 {
      return img, true, 0;
    }
    var first := FillRect(img, width, height, 0, 0, r0, GetColorForPixel(p, width, height, 0, 0));
    out, finished, polls := Passes(first, width, height, (x, y) => GetColorForPixel(p, width, height, x, y), r0, 2 * r0, budget);
  }

  /**
   * In a 10 x 3 image the first side is 3, so `previous_resolution` starts
   * at 6: pixel (6, 0) is skipped by the first pass as a multiple of 6 and by
   * the second as a multiple of 3. It lies outside the first block, so the
   * finished scan leaves its old value there.
   */
  lemma AsWrittenSkipsPixel()
    ensures ShortSide(10, 3) == 3
    ensures SkippedEveryPass(6, 0, 3, 6)
    ensures !(6 < ShortSide(10, 3) && 0 < ShortSide(10, 3))
  {
    assert PassCount(3) == 2 by {
      assert PassCount(1) == 1;
    }
  }

  /**
   * Not every pixel the first pass skips stays stale. In a 1000 x 400 image
   * the first side is 400 and `previous_resolution` starts at 800, so the
   * first pass skips pixel (800, 0). It leaves the `previous_resolution`
   * grid at the pass of side 6 (800 % 12 != 0), so not every pass skips it,
   * and the last pass, of side 1, paints it its own colour.
   */
  lemma AsWrittenRepaintsLater()
    ensures ShortSide(1000, 400) == 400
    ensures SkippedSoFar(800, 0, 400, 800, 1)
    ensures !SkippedEveryPass(800, 0, 400, 800)
  {
    assert Res(400, 5) == 12;
    assert !OnGrid(Prev(400, 800, 6), 800, 0);
    assert PassCount(400) == 9 by {
      assert PassCount(1) == 1;
      assert PassCount(3) == 2;
      assert PassCount(6) == 3;
      assert PassCount(12) == 4;
      assert PassCount(25) == 5;
      assert PassCount(50) == 6;
      assert PassCount(100) == 7;
      assert PassCount(200) == 8;
    }
    assert !SkippedSoFar(800, 0, 400, 800, 7);
    assert !SkippedSoFar(800, 0, 400, 800, 8);
  }

  /**
   * `performPixelatedScan` with `previous_resolution` starting at the long
   * side, so that the first pass skips only the origin, whose block was
   * painted before the passes. On completion every pixel has its own colour,
   * and a budget of one poll per pixel per pass is enough to complete.
   */
  method PerformPixelatedScan(p: Panel, img: Image, width: nat, height: nat, budget: nat)
    returns (out: Image, finished: bool, polls: nat)
    requires IsImage(img, width, height)
    ensures IsImage(out, width, height)
    ensures polls <= budget && (!finished ==> polls == budget)
    ensures polls <= PollBound(width, height)
    ensures budget >= PollBound(width, height) ==> finished
    ensures width == 0 || height == 0 ==> out == img && finished && polls == 0
    ensures finished && width > 0 && height > 0 ==>
              forall y, x :: 0 <= y < height && 0 <= x < width ==>
                out[y][x] == GetColorForPixel(p, width, height, x, y)
  {
    var r0 := ShortSide(width, height);
    if r0 == 0 {
      return img, true, 0;
    }
    var prev0 := if width <= height then height else width;
    var first := FillRect(img, width, height, 0, 0, r0, GetColorForPixel(p, width, height, 0, 0));
    out, finished, polls := Passes(first, width, height, (x, y) => GetColorForPixel(p, width, height, x, y), r0, prev0, budget);
    if finished {
      forall y, x | 0 <= y < height && 0 <= x < width && SkippedEveryPass(x, y, r0, prev0)
        ensures x == 0 && y == 0
      {
        assert PassCount(r0) >= 1;
        SkippedLiesOnFirstGrid(x, y, r0, prev0, PassCount(r0));
        MultiplesInWindow(0, x, prev0);
        MultiplesInWindow(0, y, prev0);
      }
    }
  }
}

=== FILE: scans.dfy ===
/**
 * The render thread's scans. The image is a `height`-long sequence of rows,
 * each `width` pixels long, indexed `image[y][x]`. The shared
 * `shouldInterrupt` flag becomes a `budget`: the number of times the scan
 * polls the flag and finds it clear before it finds it set. (During one scan
 * the flag only ever goes from clear to set; the render loop clears it after
 * the scan has returned.)
 */
module Scans {
  import opened ComplexNumbers
  import opened Viewport
  import opened Escape
  import opened Colors
  import opened Wrappers
  import opened History

  type Image = seq<seq<RGB>>

  predicate IsImage(img: Image, width: nat, height: nat) {
    |img| == height && forall y :: 0 <= y < height ==> |img[y]| == width
  }

  /** The point of the complex plane under pixel (x, y). */
  function PointForPixel(p: Panel, width: int, height: int, x: int, y: int): Complex
    requires width > 0 && height > 0
  {
    Complex(PixelXToMathX(p, x, width), PixelYToMathY(p, y, height))
  }

  /** `count2Color` on the counts `countStepsToExit` can return, where it never throws. */
  function ColorForCount(count: int): (color: RGB)
    requires 0 <= count < MaxCount
    ensures IsColor(color)
    ensures color == Black <==> count == 0
    ensures Count2ColorAsWritten(count) == Some(color)
  {
    OnlyZeroIsBlack(count);
    AsWrittenAgreesBelow2048(count);
    Count2Color(count).value
  }

  /** `count2Color(countStepsToExit(c))`. */
  function ColorForPoint(c: Complex): (color: RGB)
    ensures IsColor(color)
    ensures color == Black <==> CountStepsToExit(c) == 0
  {
    ColorForCount(CountStepsToExit(c))
  }

  /**
   * `getColorForPixel`: the colour of the point under pixel (x, y). It is a
   * legal colour, and black exactly when the point does not escape (or escapes
   * on the very first iterate).
   */
  function GetColorForPixel(p: Panel, width: int, height: int, x: int, y: int): (c: RGB)
    requires width > 0 && height > 0
    ensures IsColor(c)
    ensures c == Black <==> CountStepsToExit(PointForPixel(p, width, height, x, y)) == 0
  {
    ColorForPoint(PointForPixel(p, width, height, x, y))
  }

  lemma MulIsMonotonic(a: int, b: int, w: int)
    requires a <= b && w >= 0
    ensures a * w <= b * w
  {
    assert b * w - a * w == (b - a) * w;
  }

  /** Pixel (x1, y1) comes before pixel (x2, y2) in row-major order exactly when its index is smaller. */
  lemma RowMajorOrder(width: int, x1: int, y1: int, x2: int, y2: int)
    requires 0 <= x1 < width && 0 <= x2 < width
    ensures y1 * width + x1 < y2 * width + x2 <==> y1 < y2 || (y1 == y2 && x1 < x2)
  {
    if y1 < y2 {
      MulIsMonotonic(y1 + 1, y2, width);
      assert (y1 + 1) * width == y1 * width + width;
    } else if y2 < y1 {
      MulIsMonotonic(y2 + 1, y1, width);
      assert (y2 + 1) * width == y2 * width + width;
    }
  }

  /**
   * `performTraditionalScan`: rows top to bottom, each left to right, polling
   * the interrupt flag before every pixel. The pixels whose row-major index is
   * below the budget get their colour, all others keep their old value, and the
   * scan reports completion (whereupon the panel clears `needsRefresh`)
   * exactly when the budget covered the whole image.
   */
  method PerformTraditionalScan(p: Panel, img: Image, width: nat, height: nat, budget: nat)
    returns (out: Image, finished: bool)
    requires IsImage(img, width, height)
    ensures IsImage(out, width, height)
    ensures finished <==> budget >= width * height
    ensures width == 0 || height == 0 ==> out == img
    ensures forall y, x :: 0 <= y < height && 0 <= x < width ==>
              out[y][x] == if y * width + x < budget then GetColorForPixel(p, width, height, x, y) else img[y][x]
  {
    out := img;
    var writes := 0;
    var y := 0;
    while y < height
      invariant 0 <= y <= height
      invariant writes == y * width && writes <= budget
      invariant IsImage(out, width, height)
      invariant width == 0 ==> out == img
      invariant forall yy, xx :: 0 <= yy < height && 0 <= xx < width ==>
                  out[yy][xx] == if yy < y then GetColorForPixel(p, width, height, xx, yy) else img[yy][xx]
    {
      var x := 0;
      while x < width
        invariant 0 <= x <= width
        invariant writes == y * width + x && writes <= budget
        invariant IsImage(out, width, height)
        invariant forall yy, xx :: 0 <= yy < height && 0 <= xx < width ==>
                    out[yy][xx] == if yy < y || (yy == y && xx < x) then GetColorForPixel(p, width, height, xx, yy)
                                   else img[yy][xx]
      {
        if writes == budget {
          // `shouldInterrupt` is set: return with the image as it stands.
          RowMajorOrder(width, x, y, 0, height);
          assert budget < height * width;
          forall yy, xx | 0 <= yy < height && 0 <= xx < width
            ensures out[yy][xx] == if yy * width + xx < budget then GetColorForPixel(p, width, height, xx, yy)
                                   else img[yy][xx]
          {
            RowMajorOrder(width, xx, yy, x, y);
          }
          return out, false;
        }
        out := out[y := out[y][x := GetColorForPixel(p, width, height, x, y)]];
        writes := writes + 1;
        x := x + 1;
      }
      y := y + 1;
    }
    forall yy, xx | 0 <= yy < height && 0 <= xx < width
      ensures out[yy][xx] == if yy * width + xx < budget then GetColorForPixel(p, width, height, xx, yy)
                             else img[yy][xx]
    {
      RowMajorOrder(width, xx, yy, 0, height);
    }
    finished := true;
  }

  /**
   * At the reset view the pixel in the middle of an even-sized panel shows
   * the origin, which never escapes, so it is drawn black.
   */
  lemma CentreOfDefaultViewIsBlack(p: Panel, width: int, height: int)
    requires AtDefaultBounds(p) && width > 0 && height > 0 && width % 2 == 0 && height % 2 == 0
    ensures PointForPixel(p, width, height, width / 2, height / 2) == Zero()
    ensures GetColorForPixel(p, width, height, width / 2, height / 2) == Black
  {
    MiddleColumnIsCentre(p, width / 2, width);
    MiddleRowIsCentre(p, height / 2, height);
    var c := PointForPixel(p, width, height, width / 2, height / 2);
    CountOfZero(c);
  }
}

=== FILE: viewport.dfy ===
/**
 * The viewing state of `RecursiveFractalPanel`: the four bounds of the visible
 * part of the complex plane, the undo/redo stacks, the two flags shared with the
 * render thread, and the enabled state of the Undo and Redo menu items (which
 * the panel sets through callbacks on its parent frame).
 *
 * This module holds the state, `setMathBounds` and the pixel-to-plane mapping;
 * module History holds the commands that move ranges between the stacks.
 */
module Viewport {
  import opened ComplexNumbers
  import opened Ranges

  /** Stacks are sequences whose LAST element is the top, as with `java.util.Stack`. */
  datatype Panel = Panel(
    minMathX: real, minMathY: real, maxMathX: real, maxMathY: real,
    undoStack: seq<ComplexRange>, redoStack: seq<ComplexRange>,
    shouldInterrupt: bool, needsRefresh: bool,
    undoMenuEnabled: bool, redoMenuEnabled: bool)

  /** The `ComplexRange` the panel builds from its bounds when it pushes them on a stack. */
  function CurrentRange(p: Panel): ComplexRange {
    ComplexRange(Complex(p.minMathX, p.minMathY), Complex(p.maxMathX, p.maxMathY))
  }

  predicate BoundsOrdered(p: Panel) {
    p.minMathX <= p.maxMathX && p.minMathY <= p.maxMathY
  }

  /** True when `p` and `q` differ at most in their bounds and the two render flags. */
  predicate SameHistory(p: Panel, q: Panel) {
    && p.undoStack == q.undoStack && p.redoStack == q.redoStack
    && p.undoMenuEnabled == q.undoMenuEnabled && p.redoMenuEnabled == q.redoMenuEnabled
  }

  /** `Math.min` and `Math.max` on the model's reals. */
  function Min(a: real, b: real): real { if a <= b then a else b }
  function Max(a: real, b: real): real { if a <= b then b else a }

  /**
   * `setMathBounds`: takes two opposite corners in any order, stores the
   * smaller coordinates as minimum and the larger as maximum, and asks the
   * render thread to abandon its scan and start a fresh one.
   */
  function SetMathBounds(p: Panel, cMin: Complex, cMax: Complex): (r: Panel)
    ensures BoundsOrdered(r)
    ensures multiset{r.minMathX, r.maxMathX} == multiset{cMin.re, cMax.re}
    ensures multiset{r.minMathY, r.maxMathY} == multiset{cMin.im, cMax.im}
    ensures r.shouldInterrupt && r.needsRefresh
    ensures SameHistory(p, r)
  {
    p.(minMathX := Min(cMin.re, cMax.re), minMathY := Min(cMin.im, cMax.im),
       maxMathX := Max(cMin.re, cMax.re), maxMathY := Max(cMin.im, cMax.im),
       shouldInterrupt := true, needsRefresh := true)
  }

  /**
   * The result of `setMathBounds` depends on the rectangle only, not on which
   * pair of opposite corners describes it or in which order they come.
   */
  lemma SetMathBoundsIgnoresCornerOrder(p: Panel, a: Complex, b: Complex)
    ensures SetMathBounds(p, a, b) == SetMathBounds(p, b, a)
    ensures SetMathBounds(p, a, b) == SetMathBounds(p, Complex(a.re, b.im), Complex(b.re, a.im))
  {
    assert Min(a.re, b.re) == Min(b.re, a.re) && Max(a.re, b.re) == Max(b.re, a.re);
    assert Min(a.im, b.im) == Min(b.im, a.im) && Max(a.im, b.im) == Max(b.im, a.im);
  }

  /** Setting the bounds the panel already has changes only the render flags. */
  lemma SetMathBoundsToCurrentKeepsBounds(p: Panel)
    requires BoundsOrdered(p)
    ensures CurrentRange(SetMathBounds(p, CurrentRange(p).min, CurrentRange(p).max)) == CurrentRange(p)
  {
  }

  /** Linear interpolation from `lo` (at 0) to `hi` (at 1). */
  function Lerp(lo: real, hi: real, f: real): real {
    lo + f * (hi - lo)
  }

  /**
   * `pixelX2MathX`: the real part shown at pixel column `x` of a panel `width`
   * pixels wide. A degenerate horizontal range maps every column to its one value.
   */
  function PixelXToMathX(p: Panel, x: int, width: int): (r: real)
    requires width > 0
    ensures p.minMathX == p.maxMathX ==> r == p.minMathX
    ensures x == 0 ==> r == p.minMathX
    ensures x == width ==> r == p.maxMathX
  {
    if p.minMathX == p.maxMathX then p.minMathX
    else
      var frac := (x as real) / (width as real);
      Lerp(p.minMathX, p.maxMathX, frac)
  }

  /**
   * `pixelY2MathY`: the imaginary part shown at pixel row `y`. Row 0 is the top
   * of the panel, so it shows the LARGEST imaginary part.
   */
  function PixelYToMathY(p: Panel, y: int, height: int): (r: real)
    requires height > 0
    ensures p.minMathY == p.maxMathY ==> r == p.minMathY
    ensures y == 0 ==> r == p.maxMathY
    ensures y == height ==> r == p.minMathY
  {
    if p.minMathY == p.maxMathY then p.minMathY
    else
      var frac := 1.0 - (y as real) / (height as real);
      Lerp(p.minMathY, p.maxMathY, frac)
  }

  lemma LerpIsMonotonic(lo: real, hi: real, f1: real, f2: real)
    requires lo <= hi && f1 <= f2
    ensures Lerp(lo, hi, f1) <= Lerp(lo, hi, f2)
    ensures lo < hi && f1 < f2 ==> Lerp(lo, hi, f1) < Lerp(lo, hi, f2)
  {
    assert Lerp(lo, hi, f2) - Lerp(lo, hi, f1) == (f2 - f1) * (hi - lo);
  }

  lemma FractionOrder(a: real, b: real, w: real)
    requires a <= b && w > 0.0
    ensures a / w <= b / w
    ensures a < b ==> a / w < b / w
  {
    assert b / w - a / w == (b - a) / w;
  }

  /**
   * With ordered bounds the horizontal mapping is non-decreasing, and strictly
   * increasing on a non-degenerate range.
   */
  lemma PixelXToMathXIsMonotonic(p: Panel, x1: int, x2: int, width: int)
    requires width > 0 && BoundsOrdered(p) && x1 <= x2
    ensures PixelXToMathX(p, x1, width) <= PixelXToMathX(p, x2, width)
    ensures x1 < x2 && p.minMathX < p.maxMathX ==>
              PixelXToMathX(p, x1, width) < PixelXToMathX(p, x2, width)
  {
    if p.minMathX != p.maxMathX {
      var w := width as real;
      FractionOrder(x1 as real, x2 as real, w);
      LerpIsMonotonic(p.minMathX, p.maxMathX, (x1 as real) / w, (x2 as real) / w);
    }
  }

  /** Columns 0 to `width` show real parts inside the visible range. */
  lemma PixelXToMathXStaysInView(p: Panel, x: int, width: int)
    requires width > 0 && BoundsOrdered(p) && 0 <= x <= width
    ensures p.minMathX <= PixelXToMathX(p, x, width) <= p.maxMathX
  {
    PixelXToMathXIsMonotonic(p, 0, x, width);
    PixelXToMathXIsMonotonic(p, x, width, width);
  }

  /** The vertical mapping runs the other way: it is non-increasing in the row. */
  lemma PixelYToMathYIsAntitonic(p: Panel, y1: int, y2: int, height: int)
    requires height > 0 && BoundsOrdered(p) && y1 <= y2
    ensures PixelYToMathY(p, y2, height) <= PixelYToMathY(p, y1, height)
    ensures y1 < y2 && p.minMathY < p.maxMathY ==>
              PixelYToMathY(p, y2, height) < PixelYToMathY(p, y1, height)
  {
    if p.minMathY != p.maxMathY {
      var h := height as real;
      FractionOrder(y1 as real, y2 as real, h);
      LerpIsMonotonic(p.minMathY, p.maxMathY, 1.0 - (y2 as real) / h, 1.0 - (y1 as real) / h);
    }
  }

  /** Rows 0 to `height` show imaginary parts inside the visible range. */
  lemma PixelYToMathYStaysInView(p: Panel, y: int, height: int)
    requires height > 0 && BoundsOrdered(p) && 0 <= y <= height
    ensures p.minMathY <= PixelYToMathY(p, y, height) <= p.maxMathY
  {
    PixelYToMathYIsAntitonic(p, 0, y, height);
    PixelYToMathYIsAntitonic(p, y, height, height);
  }

  /** The middle column of an even-width panel shows the middle of the horizontal range. */
  lemma MiddleColumnIsCentre(p: Panel, x: int, width: int)
    requires width > 0 && 2 * x == width
    ensures PixelXToMathX(p, x, width) == (p.minMathX + p.maxMathX) / 2.0
  {
    assert (x as real) / (width as real) == 0.5;
  }

  /** The middle row of an even-height panel shows the middle of the vertical range. */
  lemma MiddleRowIsCentre(p: Panel, y: int, height: int)
    requires height > 0 && 2 * y == height
    ensures PixelYToMathY(p, y, height) == (p.minMathY + p.maxMathY) / 2.0
  {
    assert (y as real) / (height as real) == 0.5;
  }
}

=== FILE: wrappers.dfy ===
/** An optional value: `None` stands for the outcome of a Java call that throws. */
module Wrappers {

  datatype Option<+T> = None | Some(value: T)
}
